=== FILE: README.md ===
# minicron in Dafny

A model of minicron, a small Kotlin program. It reads a reference clock time
(`HH:MM`) and schedule lines of the form `MINUTE HOUR EXECUTABLE`, where
each pattern is an integer or the wildcard `*`. For each line it prints when
the executable runs next, relative to the reference time, and whether that
is `today` or `tomorrow`.

The model covers three classes:

- the clock-time class `SimpleTime`: construction by truncating `%`, parsing
  from `H:M` text, the `happensBeforeOrAt` ordering and rendering;
- the schedule-line class `SimpleConfig`: splitting a line on single spaces;
- the solver `MiniCronSolver.nextRunTime`: the four pattern shapes and the
  rendered output line.

It also models the earlier single-file version of the same code in
`solution.kt`, and proves that it agrees with the refactored one.

Modules, one per file:

| file | module | what |
|---|---|---|
| wrappers.dfy | `Wrappers` | `Option`; a thrown exception becomes `None` |
| kotlin_int.dfy | `KotlinInt` | Kotlin's truncating `%`, `Integer.parseInt`, Int-to-text |
| kotlin_text.dfy | `KotlinText` | `String.split` on one character, with its inverse `Join` |
| simple_time.dfy | `Times` | models/SimpleTime.kt |
| simple_config.dfy | `Configs` | models/SimpleConfig.kt |
| mini_cron_solver.dfy | `MiniCronSolver` | domain/MiniCronSolver.kt, and what its result means |
| test_vectors.dfy | `TestVectors` | the cases of test/InternalTestRunner.kt |
| solution.dfy | `Solution` | solution.kt's copies of the three classes, and their agreement with the above |
| solution_vectors.dfy | `SolutionVectors` | the cases of `runInternalTests` in solution.kt |

Design decisions:

- **Time objects.** A `SimpleTime` is the subset type of field pairs the
  constructor can produce. Each field lies strictly between minus and plus
  its modulus, because Kotlin's `%` keeps the sign of the dividend.
- **Next-run property.** The solver's meaning is stated by `Nearest`. Going
  forward around the 1440-minute dial from the reference time:
  - the candidate matches every fixed field of the schedule line;
  - no matching time comes strictly earlier;
  - the day is `today` exactly when that walk does not pass midnight.
- **Raw pattern integers.** The solver compares the parsed pattern integers
  with the reference's fields before any reduction. So for patterns outside
  0–23 and 0–59 the result is what the code computes, not the nearest time.
  `TestVectors.RawHourComparison` shows one such case.
- **Code over documentation.** The doc comments (models/SimpleTime.kt:40,
  domain/MiniCronSolver.kt:12) promise `HH:MM` output. The code pads only
  minute 0, as `00`, and prints every other field unpadded (`1:30`, `16:5`).
  The model follows the code, and `Times.ToStringPadsOnlyZero` and
  `Times.ToStringUnpaddedHour` state the difference. Schedule lines are cut, as the code and its comment at
  models/SimpleConfig.kt:22 say, at every single space, and empty pieces are
  kept: a run of spaces is not collapsed, so `30  1 x` has an empty hour
  pattern.

## Model

| member | source | states |
|---|---|---|
| KotlinInt.Rem | src/models/SimpleTime.kt:13-14 | `%` by a positive divisor gives a result strictly between minus and plus the divisor. For a non-negative dividend it equals the usual remainder; for a negative one it is the negated remainder of the magnitude. |
| KotlinInt.RemIdempotent | src/domain/MiniCronSolver.kt:33 | Passing an already reduced `(hours + 1) % 24` through the constructor's `% 24` again changes nothing. |
| KotlinInt.ParseInt | src/models/SimpleTime.kt:26 | `Integer.parseInt` succeeds only on a non-empty optional sign followed by digits whose value fits in 32 bits. The result is the digits' decimal value, negated after a `-` and unchanged after a `+` or with no sign. |
| KotlinInt.ParseIntSucceeds | src/models/SimpleTime.kt:26 | The converse: digits, optionally after `+` or `-` and leading zeros included, parse to their value, with the sign applied, whenever it fits in 32 bits. |
| KotlinInt.NatToDecimal | src/models/SimpleTime.kt:44 | Text for a non-negative Int is a non-empty digit string denoting that number, with no leading zero except for 0 itself. |
| KotlinInt.IntToString | src/models/SimpleTime.kt:44 | Text for an Int is non-empty, all digits apart from a leading `-`, and starts with `-` exactly for negative values. It has no leading zero: the first digit is `0` only for the Int 0. |
| KotlinInt.ParseIntToString | src/models/SimpleTime.kt:26 | Parsing the text of any 32-bit Int gives that Int back. |
| KotlinInt.ParseIntLeadingZeros | src/models/SimpleTime.kt:43 | Zero-padded digit text parses to its value, so the `00` written for minute 0 reads back as 0. |
| KotlinText.Split | src/models/SimpleConfig.kt:23 | `split` yields at least one piece, no piece contains the delimiter, and joining the pieces with the delimiter gives back the input. |
| KotlinText.SplitJoin | src/models/SimpleConfig.kt:23 | Splitting a join of delimiter-free pieces gives exactly those pieces, empty ones included. |
| KotlinText.SplitCount | src/models/SimpleConfig.kt:23 | The number of pieces is the number of delimiters plus one. |
| Times.Create | src/models/SimpleTime.kt:12-15 | Non-negative inputs land on the dial as `h % 24` and `m % 60`. Every input is kept modulo 24 and 60, with its sign. |
| Times.HourMinute.TotalMinutes | src/models/SimpleTime.kt:37 | Minutes since midnight lie in 0–1439 for a time on the dial, and strictly between −1440 and 1440 for every constructed time, so the Int never overflows. |
| Times.HourMinute.HappensBeforeOrAt | src/models/SimpleTime.kt:33-35 | On the dial, `happensBeforeOrAt` holds exactly when the hour is earlier, or the hour is equal and the minute is not later. |
| Times.HourMinute.ToString | src/models/SimpleTime.kt:42-45 | A rendered time contains no space, so it stays one piece of the output line. |
| Times.CreateIdempotent | src/models/SimpleTime.kt:12-15 | Rebuilding a time from its own fields gives the same time. |
| Times.TotalMinutesInDay | src/models/SimpleTime.kt:37 | A time built from non-negative inputs is between 0 and 1439 minutes after midnight. |
| Times.From | src/models/SimpleTime.kt:24-27 | A parsed time comes only from text containing `:`. |
| Times.FromFields | src/models/SimpleTime.kt:26 | Parsing the two pieces succeeds exactly when both are integers. |
| Times.FromPieces | src/models/SimpleTime.kt:24-27 | Text `h:m` with one `:` is the constructor applied to the two parsed integers; if either side is not an integer, parsing fails. |
| Times.FromDocumentedFormat | src/models/SimpleTime.kt:18-27 | Every time in the documented `HH:MM` format, hours `00`–`23` and minutes `00`–`59` zero-padded, parses to that time of day. |
| Times.FromPadded | src/models/SimpleTime.kt:18-27 | `09:05` parses to 9:05. |
| Times.FromWithoutColon | src/models/SimpleTime.kt:24-27 | Text without `:` is rejected, because piece 1 is missing. |
| Times.FromIgnoresTrailing | src/models/SimpleTime.kt:24-27 | Everything from a second `:` on is ignored. |
| Times.FromToString | src/models/SimpleTime.kt:42-45 | Parsing a rendered time gives back the same time. This holds for every time, negative fields and the `00` minute included. |
| Times.ToStringShape | src/models/SimpleTime.kt:42-45 | A rendered time has exactly one `:`. |
| Times.ToStringPadsOnlyZero | src/models/SimpleTime.kt:42-45 | For a time on the dial, minute 0 is written `00`, while minutes 1–9 are a single digit right after the `:`. This departs from the `HH:MM` of the doc comment at src/models/SimpleTime.kt:40. |
| Times.ToStringUnpaddedHour | src/models/SimpleTime.kt:42-45 | For a time on the dial, the hour has no leading zero: hours 0–9 are one digit followed by `:`, and hours 10–23 are two digits, the first not `0`. |
| Times.ToStringUnpaddedMinute | src/models/SimpleTime.kt:42-45 | Five past four in the afternoon renders as `16:5`. |
| Times.HappensBeforeOrAtOrder | src/models/SimpleTime.kt:30-35 | `happensBeforeOrAt` is reflexive, transitive and total. |
| Times.HappensBeforeOrAtLexicographic | src/models/SimpleTime.kt:33-37 | On the dial, `happensBeforeOrAt` is the lexicographic order on (hours, minutes), in both directions, and it is antisymmetric. |
| Configs.From | src/models/SimpleConfig.kt:21-29 | The three fields contain no space, and together with two separators they fit in the input. |
| Configs.FromFailsIff | src/models/SimpleConfig.kt:21-29 | A line is rejected if and only if it has fewer than two spaces. |
| Configs.FromRoundTrip | src/models/SimpleConfig.kt:15-29 | Three space-free fields joined by single spaces parse back to exactly those fields. |
| Configs.FromTruncatesAfterThirdPiece | src/models/SimpleConfig.kt:22-26 | Anything after a third space is dropped, so an executable path containing a space is cut there. |
| MiniCronSolver.ShapeOf | src/domain/MiniCronSolver.kt:19-50 | The four branch conditions are each characterised on their own, so exactly one applies to any line. |
| MiniCronSolver.Resolve | src/domain/MiniCronSolver.kt:15-50 | The solver fails exactly when a non-wildcard pattern does not parse. The day is `today` if and only if the reference happens before or at the candidate. |
| MiniCronSolver.NextRunTime | src/domain/MiniCronSolver.kt:7-53 | The solver fails exactly when a fixed pattern is not an integer. Otherwise, split on spaces, its line is the candidate's rendering (which parses back to the candidate), the day word, `-`, and pieces that rejoin to the executable verbatim. |
| MiniCronSolver.ResultLine | src/domain/MiniCronSolver.kt:52 | Split on spaces, the template line is the rendered time, the day word, `-`, then exactly the pieces of the executable. |
| MiniCronSolver.NextRunIsNearest | src/domain/MiniCronSolver.kt:7-14 | For a reference on the dial and in-range patterns, the result is the next matching time going forward around the dial. The day is `today` exactly when reaching it does not pass midnight. |
| MiniCronSolver.DayOfInDay | src/domain/MiniCronSolver.kt:24 | `happensBeforeOrAt` chooses `today` exactly when walking forward from the reference to the candidate stays before midnight. |
| MiniCronSolver.NearestDaily | src/domain/MiniCronSolver.kt:19-24 | The daily branch yields the nearest firing. |
| MiniCronSolver.NearestHourly | src/domain/MiniCronSolver.kt:25-35 | The hourly branch yields the nearest firing. |
| MiniCronSolver.NearestEveryMinuteOfHour | src/domain/MiniCronSolver.kt:36-45 | The every-minute-of-one-hour branch yields the nearest firing. |
| MiniCronSolver.DailyNextRun | src/domain/MiniCronSolver.kt:19-24 | With both patterns fixed, the candidate is the reduced parsed pair, and its day follows `happensBeforeOrAt`. |
| MiniCronSolver.HourlyNextRun | src/domain/MiniCronSolver.kt:25-35 | The hourly branch keeps the hour when the minute is now or ahead, and takes the next hour mod 24 otherwise. `tomorrow` happens exactly when the reference hour is 23 and the minute has passed. |
| MiniCronSolver.EveryMinuteOfHourNextRun | src/domain/MiniCronSolver.kt:36-45 | When the raw parsed hour equals the reference hour, the reference itself runs today. Otherwise the top of that hour is the candidate. |
| MiniCronSolver.EveryMinuteNextRun | src/domain/MiniCronSolver.kt:46-50 | `* *` yields the reference itself, today. |
| MiniCronSolver.ResultLineReadsBack | src/domain/MiniCronSolver.kt:52 | Splitting the output line on spaces gives: a time that parses back to the candidate, the day word, `-`, then pieces that rejoin to the executable verbatim. |
| TestVectors.SimpleTimeVectors | src/test/InternalTestRunner.kt:22-29 | The two `happensBeforeOrAt` test cases hold. |
| TestVectors.SolverVectors | src/test/InternalTestRunner.kt:34-83 | All eleven solver test cases produce their expected lines. |
| TestVectors.RawHourComparison | src/domain/MiniCronSolver.kt:40-44 | Hour pattern `40` at 16:10 gives `16:00 tomorrow`: the raw 40 is not the current hour, although it reduces to 16. |
| Solution.Time.TotalMinutes | src/solution.kt:106 | This file's `totalMinutes` counts the same minutes as the models version. |
| Solution.Time.HappensBefore | src/solution.kt:102-106 | This file's `happensBefore` is the same non-strict order as `happensBeforeOrAt`. |
| Solution.Time.ToString | src/solution.kt:108-111 | This file's rendering is identical to the models version. |
| Solution.NewTime | src/solution.kt:89-92 | This file's constructor reduces exactly like the models version. |
| Solution.ConfigFrom | src/solution.kt:69-77 | This file's `SimpleConfig.from` fails on the same lines and yields the same fields as the models version. |
| Solution.SolveFor | src/solution.kt:26-63 | `solveFor` fails exactly when a non-wildcard pattern does not parse. |
| Solution.SolveLine | src/solution.kt:20-23 | Solving one input line needs a line with at least two spaces. |
| Solution.SolveLineFields | src/solution.kt:20-23 | A line of three space-free fields joined by single spaces is solved as exactly those three fields. |
| Solution.SolveForAgrees | src/solution.kt:26-63 | `solveFor` returns the same line as `nextRunTime`, and fails on the same inputs, for every reference time and schedule line. |
| Solution.HourlyAgrees | src/solution.kt:36-45 | In the hourly branch, `hours + 1` reduced once agrees with the refactored `(hours + 1) % 24` reduced again. |
| Solution.EveryMinuteOfHourAgrees | src/solution.kt:46-55 | In the every-minute-of-one-hour branch both versions agree. |
| Solution.HappensBeforeExamples | src/solution.kt:94-101 | The four examples in the `happensBefore` doc comment hold, 16:10 before 16:10 included. |
| SolutionVectors.TimeVectors | src/solution.kt:119-125 | The two `happensBefore` test cases hold. |
| SolutionVectors.SolverVectors | src/solution.kt:131-181 | The eight `solveFor` test cases, each parsed from its schedule line, produce their expected lines. |

## Left out

- `main` (src/main.kt and src/solution.kt:8-24) is left out because it is console plumbing: reading the reference time and lines from standard input, choosing the test mode, and printing. `Solution.SolveLine` is the per-line step it repeats.
- The test runners are not modelled as code, because they throw and print. Their cases are lemmas in `TestVectors` and `SolutionVectors`.
- src/test/InternalTestRunner.kt calls `solveFor` on the solver object, but the class names that operation `nextRunTime`. The cases are stated about `nextRunTime`.
- KotlinInt.ParseInt: accepts only ASCII digits. `Integer.parseInt` also accepts other Unicode decimal digits, which the model does not represent.
- Exceptions are left out: `NumberFormatException` and index-out-of-bounds both become `None`, without the exception type or message.
- 32-bit wrap-around is modelled only inside `ParseInt`. Every other computation starts from constructed fields, which lie strictly between −24 and 24 (hours) or −60 and 60 (minutes), so it stays far inside the Int range.
- `SimpleTime` in both files is a plain class with reference equality. The model compares field values; the program never compares two time objects.
- MiniCronSolver.NextRunIsNearest: assumes a reference time on the dial and patterns within 0–23 and 0–59. For patterns outside those ranges the solver is described only by `Resolve` and its branch lemmas.
- TestVectors.SolverVectors: writes each schedule line as its three fields and each expected line word by word. That the line text parses to those fields is the general `Configs.FromRoundTrip`.
- SolutionVectors.SolverVectors: writes each schedule line and each expected line word by word, with the separating spaces spelled out.

=== FILE: kotlin_int.dfy ===
/** The three pieces of Kotlin/JVM integer behaviour the program relies on:
    the truncating `%` operator, `Integer.parseInt` (decimal, 32-bit) and the
    decimal rendering of an `Int` used by string templates. */
module KotlinInt {
  import opened Wrappers

  const MIN_INT: int := -0x8000_0000
  const MAX_INT: int := 0x7fff_ffff

  predicate InIntRange(v: int) {
    MIN_INT <= v <= MAX_INT
  }

  /** Kotlin's `a % n` for a positive divisor: the remainder of division
      truncated toward zero, so it carries the sign of the dividend. */
  function Rem(a: int, n: int): (r: int)
    requires n > 0
    ensures -n < r < n
    ensures a >= 0 ==> r == a % n
    ensures a < 0 ==> r <= 0 && -r == (-a) % n
  {
    if a >= 0 then a % n else -((-a) % n)
  }

  /** A value already strictly inside (-n, n) is its own remainder. */
  lemma RemSmall(a: int, n: int)
    requires n > 0 && -n < a < n
    ensures Rem(a, n) == a
  {
    if a >= 0 { ModSmall(a, n); } else { ModSmall(-a, n); }
  }

  lemma ModSmall(a: int, n: int)
    requires 0 <= a < n
    ensures a % n == a
  {
  }

  /** A value one divisor below the range wraps up by one divisor. */
  lemma ModWrap(a: int, n: int)
    requires n > 0 && -n <= a < 0
    ensures a % n == a + n
  {
    ModSmall(a + n, n);
    assert (a + n) % n == a % n by {
      assert (a + n) == (a / n + 1) * n + a % n;
    }
  }

  /** Taking the remainder twice is the same as taking it once. */
  lemma RemIdempotent(a: int, n: int)
    requires n > 0
    ensures Rem(Rem(a, n), n) == Rem(a, n)
  {
    RemSmall(Rem(a, n), n);
  }

  predicate IsDigit(ch: char) {
    '0' <= ch <= '9'
  }

  predicate AllDigits(s: string) {
    forall i :: 0 <= i < |s| ==> IsDigit(s[i])
  }

  function DigitValue(ch: char): (d: nat)
    requires IsDigit(ch)
    ensures d < 10
  {
    ch as int - '0' as int
  }

  function DigitChar(d: nat): (ch: char)
    requires d < 10
    ensures IsDigit(ch) && DigitValue(ch) == d
  {
    ('0' as int + d) as char
  }

  /** The number a string of decimal digits denotes (leading zeros allowed). */
  function DigitsValue(s: string): (v: nat)
    requires AllDigits(s)
  {
    if |s| == 0 then 0 else 10 * DigitsValue(s[..|s| - 1]) + DigitValue(s[|s| - 1])
  }

  /** The shortest decimal digit string of `n`: no leading zero except for 0 itself. */
  function NatToDecimal(n: nat): (s: string)
    ensures |s| >= 1 && AllDigits(s)
    ensures DigitsValue(s) == n
    ensures s[0] == '0' <==> n == 0
  {
    if n < 10 then [DigitChar(n)]
    else
      var prefix := NatToDecimal(n / 10);
      var s := prefix + [DigitChar(n % 10)];
      assert s[..|s| - 1] == prefix;
      s
  }

  /** `"$n"` for an Int: an optional minus sign, then the digits of |n|. */
  function IntToString(n: int): (s: string)
    ensures |s| >= 1
    ensures forall i :: 0 <= i < |s| ==> IsDigit(s[i]) || (i == 0 && s[i] == '-')
    ensures n < 0 <==> s[0] == '-'
    ensures n >= 0 ==> (s[0] == '0' <==> n == 0)
    ensures n < 0 ==> |s| >= 2 && s[1] != '0'
  {
    if n < 0 then
      var t := "-" + NatToDecimal(-n);
      assert t[1..] == NatToDecimal(-n);
      t
    else NatToDecimal(n)
  }

  /** `Integer.parseInt(s)`: an optional `+` or `-`, then one or more ASCII
      digits, denoting a value in the 32-bit range; anything else throws
      NumberFormatException, modelled as `None`. */
  function ParseInt(s: string): (r: Option<int>)
    ensures r.Some? ==> InIntRange(r.value)
    ensures r.Some? ==> |s| >= 1
    ensures r.Some? && s[0] != '-' && s[0] != '+' ==> AllDigits(s) && r.value == DigitsValue(s)
    ensures r.Some? && (s[0] == '-' || s[0] == '+') ==> |s| >= 2 && AllDigits(s[1..])
    ensures r.Some? && s[0] == '-' ==> r.value == -(DigitsValue(s[1..]) as int)
    ensures r.Some? && s[0] == '+' ==> r.value == DigitsValue(s[1..])
  {
    if |s| == 0 then None
    else if s[0] == '-' || s[0] == '+' then
      var digits := s[1..];
      if |digits| == 0 || !AllDigits(digits) then None
      else
        var v := if s[0] == '-' then -(DigitsValue(digits) as int) else DigitsValue(digits) as int;
        if InIntRange(v) then Some(v) else None
    else if AllDigits(s) && DigitsValue(s) <= MAX_INT then Some(DigitsValue(s))
    else None
  }

  /** The other direction of `ParseInt`'s contract: digits with an optional
      `+` or `-` in front parse whenever the value fits in 32 bits, leading
      zeros included. */
  lemma ParseIntSucceeds(s: string)
    ensures |s| >= 1 && AllDigits(s) && DigitsValue(s) <= MAX_INT ==> ParseInt(s) == Some(DigitsValue(s))
    ensures |s| >= 2 && s[0] == '+' && AllDigits(s[1..]) && DigitsValue(s[1..]) <= MAX_INT
        ==> ParseInt(s) == Some(DigitsValue(s[1..]))
    ensures |s| >= 2 && s[0] == '-' && AllDigits(s[1..]) && DigitsValue(s[1..]) <= -MIN_INT
        ==> ParseInt(s) == Some(-(DigitsValue(s[1..]) as int))
  {
  }

  /** Rendering an Int and parsing it back gives the same Int. */
  lemma ParseIntToString(n: int)
    requires InIntRange(n)
    ensures ParseInt(IntToString(n)) == Some(n)
  {
    var s := IntToString(n);
    if n < 0 {
      assert s[1..] == NatToDecimal(-n);
    }
  }

  /** Leading zeros are accepted: a zero-padded digit string parses to its value. */
  lemma {:induction false} ParseIntLeadingZeros(zeros: nat, n: nat)
    requires n <= MAX_INT
    ensures ParseInt(Zeros(zeros) + NatToDecimal(n)) == Some(n)
  {
    var s := Zeros(zeros) + NatToDecimal(n);
    ZerosValue(zeros, NatToDecimal(n));
    assert IsDigit(s[0]);
  }

  function Zeros(k: nat): (s: string)
    ensures |s| == k && AllDigits(s)
  {
    if k == 0 then "" else Zeros(k - 1) + "0"
  }

  /** Zeros in front of a digit string do not change its value. */
  lemma {:induction false} ZerosValue(k: nat, s: string)
    requires AllDigits(s)
    ensures AllDigits(Zeros(k) + s) && DigitsValue(Zeros(k) + s) == DigitsValue(s)
    decreases k, |s|
  {
    var t := Zeros(k) + s;
    assert AllDigits(t) by {
      forall i | 0 <= i < |t| ensures IsDigit(t[i]) {
        if i < k { assert t[i] == Zeros(k)[i]; } else { assert t[i] == s[i - k]; }
      }
    }
    if |s| == 0 {
      if k > 0 {
        ZerosValue(k - 1, "");
        assert Zeros(k - 1) + "" == Zeros(k - 1);
        assert t == Zeros(k);
        assert t[..|t| - 1] == Zeros(k - 1);
      } else {
        assert t == s;
      }
    } else {
      var init := s[..|s| - 1];
      assert AllDigits(init);
      ZerosValue(k, init);
      assert t[..|t| - 1] == Zeros(k) + init;
      assert t[|t| - 1] == s[|s| - 1];
    }
  }
}

=== FILE: kotlin_text.dfy ===
/** Kotlin's `String.split(delimiter)` for a one-character delimiter and no
    limit: every occurrence of the delimiter cuts the string, and empty pieces
    (leading, trailing or between two adjacent delimiters) are kept. */
module KotlinText {
  import opened Wrappers

  /** Position of the first `c` in `s`, if there is one. */
  function IndexOf(s: string, c: char): (r: Option<nat>)
    ensures r.Some? ==> r.value < |s| && s[r.value] == c && c !in s[..r.value]
    ensures r.None? ==> c !in s
  {
    if |s| == 0 then None
    else if s[0] == c then Some(0)
    else
      assert s == [s[0]] + s[1..];
      match IndexOf(s[1..], c)
      case None => None
      case Some(i) =>
        assert s[..i + 1] == [s[0]] + s[1..][..i];
        Some(i + 1)
  }

  /** The pieces of `s` between the occurrences of `c`, in order. */
  function Split(s: string, c: char): (r: seq<string>)
    ensures |r| >= 1
    ensures forall i :: 0 <= i < |r| ==> c !in r[i]
    ensures Join(r, c) == s
    decreases |s|
  {
    match IndexOf(s, c)
    case None => [s]
    case Some(i) =>
      var rest := Split(s[i + 1..], c);
      assert ([s[..i]] + rest)[1..] == rest;
      assert s == s[..i] + [c] + s[i + 1..];
      [s[..i]] + rest
  }

  /** Glue pieces back together with `c` between neighbours; the inverse of `Split`. */
  function Join(pieces: seq<string>, c: char): (s: string)
    requires |pieces| >= 1
  {
    if |pieces| == 1 then pieces[0] else pieces[0] + [c] + Join(pieces[1..], c)
  }

  /** Cutting at the first delimiter: a delimiter-free head becomes the first piece. */
  lemma SplitCons(a: string, c: char, b: string)
    requires c !in a
    ensures Split(a + [c] + b, c) == [a] + Split(b, c)
  {
    var s := a + [c] + b;
    assert s[|a|] == c;
    var i := IndexOf(s, c).value;
    assert s[..|a|] == a;
    assert i == |a|;
    assert s[i + 1..] == b;
  }

  /** Three delimiter-free heads become the first three pieces. */
  lemma SplitThree(a: string, b: string, d: string, c: char, rest: string)
    requires c !in a && c !in b && c !in d
    ensures Split(a + [c] + (b + [c] + (d + [c] + rest)), c) == [a, b, d] + Split(rest, c)
  {
    var t3 := d + [c] + rest;
    var t2 := b + [c] + t3;
    SplitCons(d, c, rest);
    SplitCons(b, c, t3);
    SplitCons(a, c, t2);
  }

  /** A delimiter-free string is a single piece. */
  lemma SplitNoDelimiter(s: string, c: char)
    requires c !in s
    ensures Split(s, c) == [s]
  {
  }

  /** Splitting a join of delimiter-free pieces gives the pieces back. */
  lemma {:induction false} SplitJoin(pieces: seq<string>, c: char)
    requires |pieces| >= 1
    requires forall i :: 0 <= i < |pieces| ==> c !in pieces[i]
    ensures Split(Join(pieces, c), c) == pieces
    decreases |pieces|
  {
    if |pieces| == 1 {
      SplitNoDelimiter(pieces[0], c);
    } else {
      var rest := pieces[1..];
      assert forall i :: 0 <= i < |rest| ==> c !in rest[i] by {
        forall i | 0 <= i < |rest| ensures c !in rest[i] {
          assert rest[i] == pieces[i + 1];
        }
      }
      SplitJoin(rest, c);
      assert c !in pieces[0];
      SplitCons(pieces[0], c, Join(rest, c));
      assert [pieces[0]] + rest == pieces;
    }
  }

  /** There is one more piece than there are delimiters. */
  lemma {:induction false} SplitCount(s: string, c: char)
    ensures |Split(s, c)| == multiset(s)[c] + 1
    decreases |s|
  {
    var r := IndexOf(s, c);
    if r.None? {
      assert Split(s, c) == [s];
      assert c !in multiset(s);
    } else {
      var i := r.value;
      var tail := s[i + 1..];
      assert Split(s, c) == [s[..i]] + Split(tail, c);
      SplitCount(tail, c);
      assert c !in multiset(s[..i]);
      assert s == (s[..i] + [c]) + tail;
      assert multiset(s) == multiset(s[..i]) + multiset{c} + multiset(tail);
    }
  }
}

=== FILE: mini_cron_solver.dfy ===
/** domain/MiniCronSolver.kt: the next firing time of one schedule line,
    relative to a reference clock time, and whether it falls today or tomorrow. */
module MiniCronSolver {
  import opened Wrappers
  import opened KotlinInt
  import opened Times
  import opened Configs
  import KotlinText

  datatype Day = Today | Tomorrow

  function DayWord(day: Day): (word: string)
    ensures ' ' !in word
  {
    match day
    case Today => "today"
    case Tomorrow => "tomorrow"
  }

  /** The four pattern shapes, in the order the source tests them. */
  datatype Shape = Daily | Hourly | EveryMinuteOfHour | EveryMinute

  /** Which of the four branches runs: decided by string equality of the two
      raw patterns with the wildcard, and by nothing else. */
  function ShapeOf(config: SimpleConfig): (shape: Shape)
    ensures shape == Daily <==> config.hourPattern != ALL_VALUES && config.minutePattern != ALL_VALUES
    ensures shape == Hourly <==> config.hourPattern == ALL_VALUES && config.minutePattern != ALL_VALUES
    ensures shape == EveryMinuteOfHour <==> config.hourPattern != ALL_VALUES && config.minutePattern == ALL_VALUES
    ensures shape == EveryMinute <==> config.hourPattern == ALL_VALUES && config.minutePattern == ALL_VALUES
  {
    if config.hourPattern != ALL_VALUES && config.minutePattern != ALL_VALUES then Daily
    else if config.hourPattern == ALL_VALUES && config.minutePattern != ALL_VALUES then Hourly
    else if config.hourPattern != ALL_VALUES && config.minutePattern == ALL_VALUES then EveryMinuteOfHour
    else EveryMinute
  }

  /** The candidate time and the day word before they are rendered. */
  datatype NextRun = NextRun(cronTime: SimpleTime, day: Day)

  function DayOf(givenTime: SimpleTime, cronTime: SimpleTime): (day: Day)
    ensures day == Today <==> givenTime.TotalMinutes() <= cronTime.TotalMinutes()
  {
    if givenTime.HappensBeforeOrAt(cronTime) then Today else Tomorrow
  }

  /** The decision part of `nextRunTime`. The parsed pattern integers are
      compared raw, before any reduction, with the reference's fields. */
  function Resolve(givenTime: SimpleTime, config: SimpleConfig): (r: Option<NextRun>)
    ensures r.None? <==>
      || (config.hourPattern != ALL_VALUES && ParseInt(config.hourPattern).None?)
      || (config.minutePattern != ALL_VALUES && ParseInt(config.minutePattern).None?)
    ensures r.Some? ==> (r.value.day == Today <==> givenTime.HappensBeforeOrAt(r.value.cronTime))
  {
    match ShapeOf(config)
    case Daily =>
      var configHour :- ParseInt(config.hourPattern);
      var configMinute :- ParseInt(config.minutePattern);
      var cronTime := Create(configHour, configMinute);
      Some(NextRun(cronTime, DayOf(givenTime, cronTime)))
    case Hourly =>
      var configMinute :- ParseInt(config.minutePattern);
      var cronTime :=
        if configMinute >= givenTime.minutes then Create(givenTime.hours, configMinute)
        else Create(Rem(givenTime.hours + 1, 24), configMinute);
      Some(NextRun(cronTime, DayOf(givenTime, cronTime)))
    case EveryMinuteOfHour =>
      var configHour :- ParseInt(config.hourPattern);
      var cronTime :=
        if givenTime.hours == configHour then Create(configHour, givenTime.minutes)
        else Create(configHour, 0);
      Some(NextRun(cronTime, DayOf(givenTime, cronTime)))
    case EveryMinute =>
      Some(NextRun(givenTime, Today))
  }

  /** `nextRunTime`: the rendered line `H:M DAY - EXECUTABLE`. It fails
      exactly when a fixed pattern is not an integer; otherwise the line reads
      back, split on spaces, as the candidate time, its day word, `-` and the
      executable verbatim. */
  function NextRunTime(givenTime: SimpleTime, config: SimpleConfig): (r: Option<string>)
    ensures r.None? <==>
      || (config.hourPattern != ALL_VALUES && ParseInt(config.hourPattern).None?)
      || (config.minutePattern != ALL_VALUES && ParseInt(config.minutePattern).None?)
    ensures r.Some? ==>
      var run := Resolve(givenTime, config).value;
      var pieces := KotlinText.Split(r.value, ' ');
      && |pieces| >= 4
      && pieces[0] == run.cronTime.ToString()
      && Times.From(pieces[0]) == Some(run.cronTime)
      && pieces[1] == DayWord(run.day)
      && pieces[2] == "-"
      && KotlinText.Join(pieces[3..], ' ') == config.executable
  {
    var run :- Resolve(givenTime, config);
    ResultLineReadsBack(run, config.executable);
    Some(ResultLine(run, config.executable))
  }

  /** The `"$cronTime $todayOrTomorrow - ${config.executable}"` template:
      split on spaces, the line is the rendered time, the day word, `-`, then
      the pieces of the executable. */
  function ResultLine(run: NextRun, executable: string): (line: string)
    ensures var pieces := KotlinText.Split(line, ' ');
      && |pieces| >= 4
      && pieces[0] == run.cronTime.ToString()
      && pieces[1] == DayWord(run.day)
      && pieces[2] == "-"
      && pieces[3..] == KotlinText.Split(executable, ' ')
  {
    var line := run.cronTime.ToString() + " " + DayWord(run.day) + " - " + executable;
    LinePieces(run.cronTime.ToString(), DayWord(run.day), executable);
    line
  }

  /** Once the decision is made, `nextRunTime` is the template line of it. */
  lemma NextRunTimeLine(givenTime: SimpleTime, config: SimpleConfig, run: NextRun)
    requires Resolve(givenTime, config) == Some(run)
    ensures NextRunTime(givenTime, config)
         == Some(run.cronTime.ToString() + " " + DayWord(run.day) + " - " + config.executable)
  {
  }

  lemma LinePieces(time: string, word: string, executable: string)
    requires ' ' !in time && ' ' !in word
    ensures KotlinText.Split(time + " " + word + " - " + executable, ' ')
         == [time, word, "-"] + KotlinText.Split(executable, ' ')
  {
    assert time + " " + word + " - " + executable == time + [' '] + (word + [' '] + ("-" + [' '] + executable));
    KotlinText.SplitThree(time, word, "-", ' ', executable);
  }

  // ---------------------------------------------------------------------
  // What the result means
  // ---------------------------------------------------------------------

  /** A clock time satisfies every fixed field of the configuration. */
  ghost predicate Matches(t: HourMinute, config: SimpleConfig) {
    && (config.minutePattern == ALL_VALUES || ParseInt(config.minutePattern) == Some(t.minutes))
    && (config.hourPattern == ALL_VALUES || ParseInt(config.hourPattern) == Some(t.hours))
  }

  /** A pattern is the wildcard or an integer in 0..bound-1. */
  predicate PatternInRange(pattern: string, bound: int) {
    pattern == ALL_VALUES || (ParseInt(pattern).Some? && 0 <= ParseInt(pattern).value < bound)
  }

  /** The promise of the source's doc comment: for in-range patterns the
      candidate matches every fixed field, no matching time lies strictly
      between the reference and the candidate going forward around the dial,
      and the day is `today` exactly when that forward walk does not pass
      midnight. */
  lemma NextRunIsNearest(givenTime: SimpleTime, config: SimpleConfig)
    requires givenTime.InDay()
    requires PatternInRange(config.minutePattern, 60) && PatternInRange(config.hourPattern, 24)
    ensures Resolve(givenTime, config).Some?
    ensures Nearest(givenTime, config, Resolve(givenTime, config).value)
  {
    match ShapeOf(config)
    case Daily => NearestDaily(givenTime, config);
    case Hourly => NearestHourly(givenTime, config);
    case EveryMinuteOfHour => NearestEveryMinuteOfHour(givenTime, config);
    case EveryMinute => MinutesUntilInDay(givenTime, givenTime);
  }

  /** `run` is the next firing of `config` at or after `givenTime`, with the right day. */
  ghost predicate Nearest(givenTime: SimpleTime, config: SimpleConfig, run: NextRun) {
    && run.cronTime.InDay()
    && Matches(run.cronTime, config)
    && (forall t: HourMinute :: t.InDay() && Matches(t, config) ==>
          MinutesUntil(givenTime, run.cronTime) <= MinutesUntil(givenTime, t))
    && (run.day == Today <==> givenTime.TotalMinutes() + MinutesUntil(givenTime, run.cronTime) < MINUTES_PER_DAY)
  }

  /** On the dial, `today` is exactly the case where walking forward from
      the reference to the candidate does not pass midnight. */
  lemma DayOfInDay(givenTime: HourMinute, cronTime: SimpleTime)
    requires givenTime.InDay() && cronTime.InDay()
    ensures DayOf(givenTime, cronTime) == Today
        <==> givenTime.TotalMinutes() + MinutesUntil(givenTime, cronTime) < MINUTES_PER_DAY
  {
    MinutesUntilInDay(givenTime, cronTime);
  }

  lemma NearestDaily(givenTime: SimpleTime, config: SimpleConfig)
    requires givenTime.InDay()
    requires PatternInRange(config.minutePattern, 60) && PatternInRange(config.hourPattern, 24)
    requires ShapeOf(config) == Daily
    ensures Resolve(givenTime, config).Some?
    ensures Nearest(givenTime, config, Resolve(givenTime, config).value)
  {
    var hour := ParseInt(config.hourPattern).value;
    var minute := ParseInt(config.minutePattern).value;
    var cron := Create(hour, minute);
    assert cron == HourMinute(hour, minute);
    var run := NextRun(cron, DayOf(givenTime, cron));
    DailyNextRun(givenTime, config, hour, minute);
    assert Resolve(givenTime, config) == Some(run);
    assert Matches(cron, config);
    DayOfInDay(givenTime, cron);
    forall t: HourMinute | t.InDay() && Matches(t, config)
      ensures MinutesUntil(givenTime, cron) <= MinutesUntil(givenTime, t)
    {
      assert t == cron;
    }
    assert Nearest(givenTime, config, run);
  }

  lemma NearestHourly(givenTime: SimpleTime, config: SimpleConfig)
    requires givenTime.InDay()
    requires PatternInRange(config.minutePattern, 60) && PatternInRange(config.hourPattern, 24)
    requires ShapeOf(config) == Hourly
    ensures Resolve(givenTime, config).Some?
    ensures Nearest(givenTime, config, Resolve(givenTime, config).value)
  {
    var minute := ParseInt(config.minutePattern).value;
    HourlyNextRun(givenTime, config, minute);
    var cron := Resolve(givenTime, config).value.cronTime;
    DayOfInDay(givenTime, cron);
    forall t: HourMinute | t.InDay() && Matches(t, config)
      ensures MinutesUntil(givenTime, cron) <= MinutesUntil(givenTime, t)
    {
      MinutesUntilInDay(givenTime, t);
      MinutesUntilInDay(givenTime, cron);
    }
  }

  lemma NearestEveryMinuteOfHour(givenTime: SimpleTime, config: SimpleConfig)
    requires givenTime.InDay()
    requires PatternInRange(config.minutePattern, 60) && PatternInRange(config.hourPattern, 24)
    requires ShapeOf(config) == EveryMinuteOfHour
    ensures Resolve(givenTime, config).Some?
    ensures Nearest(givenTime, config, Resolve(givenTime, config).value)
  {
    var hour := ParseInt(config.hourPattern).value;
    EveryMinuteOfHourNextRun(givenTime, config, hour);
    var cron := if givenTime.hours == hour then givenTime else HourMinute(hour, 0);
    assert Resolve(givenTime, config).value.cronTime == cron;
    DayOfInDay(givenTime, cron);
    forall t: HourMinute | t.InDay() && Matches(t, config)
      ensures MinutesUntil(givenTime, cron) <= MinutesUntil(givenTime, t)
    {
      MinutesUntilInDay(givenTime, t);
      MinutesUntilInDay(givenTime, cron);
    }
  }

  /** Daily (both fields fixed): the candidate is the parsed pair, reduced,
      and it fires today iff the reference is at or before it. */
  lemma DailyNextRun(givenTime: SimpleTime, config: SimpleConfig, hour: int, minute: int)
    requires ParseInt(config.hourPattern) == Some(hour) && ParseInt(config.minutePattern) == Some(minute)
    ensures Resolve(givenTime, config) == Some(NextRun(Create(hour, minute), DayOf(givenTime, Create(hour, minute))))
  {
    assert ParseInt(ALL_VALUES).None?;
  }

  /** Hourly (only the minute fixed, in range): same hour when the minute is
      still ahead or now, otherwise the next hour; `tomorrow` happens only
      when that next hour wraps from 23 to 0. */
  lemma HourlyNextRun(givenTime: SimpleTime, config: SimpleConfig, minute: int)
    requires givenTime.InDay()
    requires config.hourPattern == ALL_VALUES
    requires ParseInt(config.minutePattern) == Some(minute) && 0 <= minute < 60
    ensures Resolve(givenTime, config).Some?
    ensures var run := Resolve(givenTime, config).value;
      && run.cronTime.minutes == minute
      && run.cronTime.hours == (if minute >= givenTime.minutes then givenTime.hours else (givenTime.hours + 1) % 24)
      && (run.day == Tomorrow <==> givenTime.hours == 23 && minute < givenTime.minutes)
  {
    assert ParseInt(ALL_VALUES).None?;
    var hour := if minute >= givenTime.minutes then givenTime.hours else (givenTime.hours + 1) % 24;
    assert Create(if minute >= givenTime.minutes then givenTime.hours else Rem(givenTime.hours + 1, 24), minute)
        == HourMinute(hour, minute);
    assert Resolve(givenTime, config) == Some(NextRun(HourMinute(hour, minute), DayOf(givenTime, HourMinute(hour, minute))));
  }

  /** Every minute of one hour (only the hour fixed): when the raw parsed hour
      equals the reference hour the reference itself fires today; otherwise
      the top of that hour, today iff not already past. */
  lemma EveryMinuteOfHourNextRun(givenTime: SimpleTime, config: SimpleConfig, hour: int)
    requires config.minutePattern == ALL_VALUES
    requires ParseInt(config.hourPattern) == Some(hour)
    ensures Resolve(givenTime, config).Some?
    ensures givenTime.hours == hour ==> Resolve(givenTime, config).value == NextRun(givenTime, Today)
    ensures givenTime.hours != hour ==> Resolve(givenTime, config).value.cronTime == Create(hour, 0)
  {
    assert ParseInt(ALL_VALUES).None?;
    CreateIdempotent(givenTime);
  }

  /** Every minute (`* *`): the reference itself, always today. */
  lemma EveryMinuteNextRun(givenTime: SimpleTime, config: SimpleConfig)
    requires config.minutePattern == ALL_VALUES && config.hourPattern == ALL_VALUES
    ensures Resolve(givenTime, config) == Some(NextRun(givenTime, Today))
  {
  }

  /** The emitted line reads back: split on spaces, its first piece parses to
      the candidate time, then the day word, then `-`, and the remaining
      pieces rejoin to the executable, verbatim. */
  lemma {:induction false} ResultLineReadsBack(run: NextRun, executable: string)
    ensures var pieces := KotlinText.Split(ResultLine(run, executable), ' ');
      && |pieces| >= 4
      && Times.From(pieces[0]) == Some(run.cronTime)
      && pieces[1] == DayWord(run.day)
      && pieces[2] == "-"
      && KotlinText.Join(pieces[3..], ' ') == executable
  {
    FromToString(run.cronTime);
  }
}

=== FILE: simple_config.dfy ===
/** models/SimpleConfig.kt: one schedule line, `MINUTE_PATTERN HOUR_PATTERN
    EXECUTABLE`, kept as three raw strings. */
module Configs {
  import opened Wrappers
  import KotlinText

  /** The wildcard pattern: exactly the one-character string `*`. */
  const ALL_VALUES: string := "*"

  datatype SimpleConfig = SimpleConfig(minutePattern: string, hourPattern: string, executable: string)

  /** `SimpleConfig.from`: split on every single space and take pieces 0, 1
      and 2. Fewer than three pieces is a failure; nothing else is checked. */
  function From(configString: string): (r: Option<SimpleConfig>)
    ensures r.Some? ==> ' ' !in r.value.minutePattern && ' ' !in r.value.hourPattern && ' ' !in r.value.executable
    ensures r.Some? ==> |r.value.minutePattern| + |r.value.hourPattern| + |r.value.executable| + 2 <= |configString|
  {
    var splits := KotlinText.Split(configString, ' ');
    if |splits| < 3 then None
    else
      JoinLength(splits);
      Some(SimpleConfig(splits[0], splits[1], splits[2]))
  }

  /** Joining three or more pieces needs at least two separators. */
  lemma JoinLength(pieces: seq<string>)
    requires |pieces| >= 3
    ensures |pieces[0]| + |pieces[1]| + |pieces[2]| + 2 <= |KotlinText.Join(pieces, ' ')|
  {
    var rest := pieces[1..];
    assert rest[1..] == pieces[2..];
    assert |KotlinText.Join(pieces[2..], ' ')| >= |pieces[2]|;
  }

  /** The line is rejected exactly when it holds fewer than two spaces. */
  lemma FromFailsIff(configString: string)
    ensures From(configString).None? <==> multiset(configString)[' '] < 2
  {
    KotlinText.SplitCount(configString, ' ');
  }

  /** Three space-free fields joined by single spaces parse back to those
      fields, whatever they hold (empty fields included). */
  lemma {:induction false} FromRoundTrip(minutePattern: string, hourPattern: string, executable: string)
    requires ' ' !in minutePattern && ' ' !in hourPattern && ' ' !in executable
    ensures From(minutePattern + " " + hourPattern + " " + executable)
         == Some(SimpleConfig(minutePattern, hourPattern, executable))
  {
    var line := minutePattern + " " + hourPattern + " " + executable;
    assert line == minutePattern + [' '] + (hourPattern + [' '] + executable);
    KotlinText.SplitCons(minutePattern, ' ', hourPattern + [' '] + executable);
    KotlinText.SplitCons(hourPattern, ' ', executable);
    KotlinText.SplitNoDelimiter(executable, ' ');
  }

  /** Everything after a third space is dropped: an executable path that
      contains a space is cut at that space. */
  lemma {:induction false} FromTruncatesAfterThirdPiece(minutePattern: string, hourPattern: string, executable: string, rest: string)
    requires ' ' !in minutePattern && ' ' !in hourPattern && ' ' !in executable
    ensures From(minutePattern + " " + hourPattern + " " + executable + " " + rest)
         == Some(SimpleConfig(minutePattern, hourPattern, executable))
  {
    var line := minutePattern + " " + hourPattern + " " + executable + " " + rest;
    assert line == minutePattern + [' '] + (hourPattern + [' '] + (executable + [' '] + rest));
    KotlinText.SplitCons(minutePattern, ' ', hourPattern + [' '] + (executable + [' '] + rest));
    KotlinText.SplitCons(hourPattern, ' ', executable + [' '] + rest);
    KotlinText.SplitCons(executable, ' ', rest);
  }
}

=== FILE: simple_time.dfy ===
/** models/SimpleTime.kt: a clock time of day, reduced at construction,
    ordered by minutes since midnight and rendered as `H:M` text. */
module Times {
  import opened Wrappers
  import opened KotlinInt
  import KotlinText

  const MINUTES_PER_DAY: int := 24 * 60

  /** The two fields of a SimpleTime; `SimpleTime` below restricts them to
      what the constructor can produce. */
  datatype HourMinute = HourMinute(hours: int, minutes: int) {

    /** What the constructor's truncating `% 24` and `% 60` can yield. */
    predicate Reduced() {
      -24 < hours < 24 && -60 < minutes < 60
    }

    /** A time on the 24-hour dial: what non-negative inputs produce. */
    predicate InDay() {
      0 <= hours < 24 && 0 <= minutes < 60
    }

    /** Minutes since midnight: within the day on the dial, and well inside
        the 32-bit range for every constructed time. */
    function TotalMinutes(): (r: int)
      ensures InDay() ==> 0 <= r < MINUTES_PER_DAY
      ensures Reduced() ==> -MINUTES_PER_DAY < r < MINUTES_PER_DAY
    {
      hours * 60 + minutes
    }

    /** Non-strict: a time happens before or at itself. On the dial this is
        the lexicographic order on (hours, minutes). */
    predicate HappensBeforeOrAt(other: HourMinute): (r: bool)
      ensures InDay() && other.InDay() ==>
        (r <==> hours < other.hours || (hours == other.hours && minutes <= other.minutes))
    {
      TotalMinutes() <= other.TotalMinutes()
    }

    /** The hour unpadded, `:`, then `00` for minute 0 and the unpadded
        minute otherwise. The text holds no space, so it survives as one piece
        of a space-separated line. */
    function ToString(): (s: string)
      ensures ' ' !in s
    {
      var minutesStr := if minutes == 0 then "00" else IntToString(minutes);
      var hoursStr := IntToString(hours);
      assert ':' !in hoursStr && ' ' !in hoursStr;
      assert ':' !in minutesStr && ' ' !in minutesStr;
      var s := hoursStr + ":" + minutesStr;
      assert s == hoursStr + [':'] + minutesStr;
      s
    }
  }

  /** Every SimpleTime object: its fields went through the constructor. */
  type SimpleTime = t: HourMinute | t.Reduced() witness HourMinute(0, 0)

  /** The constructor `SimpleTime(hours, minutes)`. */
  function Create(hours: int, minutes: int): (t: SimpleTime)
    ensures hours >= 0 ==> t.hours == hours % 24
    ensures minutes >= 0 ==> t.minutes == minutes % 60
    ensures hours >= 0 && minutes >= 0 ==> t.InDay()
    ensures (hours - t.hours) % 24 == 0 && (minutes - t.minutes) % 60 == 0
    ensures hours <= 0 ==> t.hours <= 0
    ensures minutes <= 0 ==> t.minutes <= 0
  {
    HoursCongruent(hours);
    MinutesCongruent(minutes);
    HourMinute(Rem(hours, 24), Rem(minutes, 60))
  }

  /** `SimpleTime.from`: split on `:`, parse pieces 0 and 1, construct. A
      missing piece or an unparsable one is a failure; later pieces are ignored. */
  function From(timeString: string): (r: Option<SimpleTime>)
    ensures r.Some? ==> ':' in timeString
  {
    var splits := KotlinText.Split(timeString, ':');
    if |splits| < 2 then None else FromFields(splits[0], splits[1])
  }

  /** Parse the hour and minute texts, then construct. */
  function FromFields(hoursText: string, minutesText: string): (r: Option<SimpleTime>)
    ensures r.Some? <==> ParseInt(hoursText).Some? && ParseInt(minutesText).Some?
  {
    var hours :- ParseInt(hoursText);
    var minutes :- ParseInt(minutesText);
    Some(Create(hours, minutes))
  }

  /** The stored hour differs from the given one by a multiple of 24. */
  lemma HoursCongruent(hours: int)
    ensures (hours - Rem(hours, 24)) % 24 == 0
  {
    if hours >= 0 { MultipleOf24(hours / 24); } else { MultipleOf24(-((-hours) / 24)); }
  }

  /** The stored minute differs from the given one by a multiple of 60. */
  lemma MinutesCongruent(minutes: int)
    ensures (minutes - Rem(minutes, 60)) % 60 == 0
  {
    if minutes >= 0 { MultipleOf60(minutes / 60); } else { MultipleOf60(-((-minutes) / 60)); }
  }

  lemma MultipleOf24(k: int)
    ensures (24 * k) % 24 == 0
  {
  }

  lemma MultipleOf60(k: int)
    ensures (60 * k) % 60 == 0
  {
  }

  /** How many minutes forward around the dial from `from` to `to`. */
  function MinutesUntil(from: HourMinute, to: HourMinute): (d: int)
    ensures 0 <= d < MINUTES_PER_DAY
  {
    (to.TotalMinutes() - from.TotalMinutes()) % MINUTES_PER_DAY
  }

  /** Rebuilding a time from its own fields gives the same time. */
  lemma CreateIdempotent(t: SimpleTime)
    ensures Create(t.hours, t.minutes) == t
  {
    RemSmall(t.hours, 24);
    RemSmall(t.minutes, 60);
  }

  /** A time built from non-negative inputs lies within the day's 1440 minutes. */
  lemma TotalMinutesInDay(hours: int, minutes: int)
    requires hours >= 0 && minutes >= 0
    ensures 0 <= Create(hours, minutes).TotalMinutes() < MINUTES_PER_DAY
  {
  }

  /** The ordering is reflexive, transitive and total. */
  lemma HappensBeforeOrAtOrder(a: HourMinute, b: HourMinute, c: HourMinute)
    ensures a.HappensBeforeOrAt(a)
    ensures a.HappensBeforeOrAt(b) && b.HappensBeforeOrAt(c) ==> a.HappensBeforeOrAt(c)
    ensures a.HappensBeforeOrAt(b) || b.HappensBeforeOrAt(a)
  {
  }

  /** On the dial the ordering is the lexicographic one on (hours, minutes),
      and it is antisymmetric. */
  lemma HappensBeforeOrAtLexicographic(a: HourMinute, b: HourMinute)
    requires a.InDay() && b.InDay()
    ensures a.HappensBeforeOrAt(b) <==> a.hours < b.hours || (a.hours == b.hours && a.minutes <= b.minutes)
    ensures a.HappensBeforeOrAt(b) && b.HappensBeforeOrAt(a) ==> a == b
  {
  }

  /** For two times on the dial, the forward distance is the plain difference
      when `to` is not earlier, and wraps past midnight otherwise. */
  lemma MinutesUntilInDay(from: HourMinute, to: HourMinute)
    requires from.InDay() && to.InDay()
    ensures MinutesUntil(from, to) ==
      if from.HappensBeforeOrAt(to) then to.TotalMinutes() - from.TotalMinutes()
      else to.TotalMinutes() - from.TotalMinutes() + MINUTES_PER_DAY
  {
    var d := to.TotalMinutes() - from.TotalMinutes();
    if d >= 0 {
      ModSmall(d, MINUTES_PER_DAY);
    } else {
      ModWrap(d, MINUTES_PER_DAY);
    }
  }

  /** A rendered time contains exactly one `:`. */
  lemma ToStringShape(t: HourMinute)
    ensures multiset(t.ToString())[':'] == 1
  {
    var h := IntToString(t.hours);
    var m := if t.minutes == 0 then "00" else IntToString(t.minutes);
    assert ':' !in h && ':' !in m;
    assert t.ToString() == h + [':'] + m;
    assert multiset(t.ToString()) == multiset(h) + multiset{':'} + multiset(m);
  }

  /** Only minute 0 is padded: it is written `00`, while minutes 1 to 9 are
      written as a single digit right after the `:`, so the text is not in
      the `HH:MM` form the class documents. */
  lemma ToStringPadsOnlyZero(t: SimpleTime)
    requires t.InDay()
    ensures t.minutes == 0 ==> t.ToString()[|t.ToString()| - 3..] == ":00"
    ensures 0 < t.minutes < 10 ==> t.ToString()[|t.ToString()| - 2] == ':'
    ensures 0 < t.minutes < 10 ==> t.ToString()[|t.ToString()| - 1] == DigitChar(t.minutes)
  {
    var h := IntToString(t.hours);
    var m := if t.minutes == 0 then "00" else IntToString(t.minutes);
    assert t.ToString() == h + [':'] + m;
  }

  /** The hour is written without a leading zero: one digit before the `:`
      for hours 0 to 9, and two digits not starting with `0` otherwise. */
  lemma ToStringUnpaddedHour(t: SimpleTime)
    requires t.InDay()
    ensures t.hours < 10 ==> t.ToString()[0] == DigitChar(t.hours) && t.ToString()[1] == ':'
    ensures t.hours >= 10 ==> t.ToString()[0] != '0' && t.ToString()[2] == ':'
  {
    var h := IntToString(t.hours);
    var m := if t.minutes == 0 then "00" else IntToString(t.minutes);
    assert t.ToString() == h + [':'] + m;
    if t.hours >= 10 {
      assert NatToDecimal(t.hours / 10) == [DigitChar(t.hours / 10)];
    }
  }

  /** Five past four in the afternoon renders as `16:5`. */
  lemma ToStringUnpaddedMinute()
    ensures Create(16, 5).ToString() == "16:5"
  {
  }

  /** Rendering a time and parsing the text back gives the same time. */
  lemma {:induction false} FromToString(t: SimpleTime)
    ensures From(t.ToString()) == Some(t)
  {
    var h := IntToString(t.hours);
    var m := if t.minutes == 0 then "00" else IntToString(t.minutes);
    assert ':' !in h;
    assert ':' !in m;
    assert t.ToString() == h + [':'] + m;
    KotlinText.SplitCons(h, ':', m);
    KotlinText.SplitNoDelimiter(m, ':');
    ParseIntToString(t.hours);
    if t.minutes == 0 {
      ParseIntLeadingZeros(1, 0);
      assert Zeros(1) + NatToDecimal(0) == "00";
    } else {
      ParseIntToString(t.minutes);
    }
    CreateIdempotent(t);
  }

  /** Text with exactly one `:` is a time when both sides parse as integers,
      the constructor applied to them; a side that is not an integer fails. */
  lemma {:induction false} FromPieces(hours: string, minutes: string)
    requires ':' !in hours && ':' !in minutes
    ensures ParseInt(hours).Some? && ParseInt(minutes).Some? ==>
      From(hours + ":" + minutes) == Some(Create(ParseInt(hours).value, ParseInt(minutes).value))
    ensures ParseInt(hours).None? || ParseInt(minutes).None? ==> From(hours + ":" + minutes) == None
  {
    assert hours + ":" + minutes == hours + [':'] + minutes;
    KotlinText.SplitCons(hours, ':', minutes);
    KotlinText.SplitNoDelimiter(minutes, ':');
  }

  /** A field of the documented `HH:MM` input: two digits, zero-padded. */
  function TwoDigits(n: nat): (s: string)
    requires n < 100
    ensures |s| == 2 && AllDigits(s) && DigitsValue(s) == n
  {
    var high := [DigitChar(n / 10)];
    assert high[..0] == [];
    assert DigitsValue(high) == n / 10;
    var s := high + [DigitChar(n % 10)];
    assert s[..1] == high;
    s
  }

  /** Every time in the documented input format, hours `00`..`23` and minutes
      `00`..`59`, parses to that time of day. */
  lemma {:induction false} FromDocumentedFormat(hours: nat, minutes: nat)
    requires hours < 24 && minutes < 60
    ensures From(TwoDigits(hours) + ":" + TwoDigits(minutes)) == Some(HourMinute(hours, minutes))
  {
    var hoursText, minutesText := TwoDigits(hours), TwoDigits(minutes);
    assert From(hoursText + ":" + minutesText) == Some(Create(hours, minutes)) by {
      ParseTwoDigits(hours);
      ParseTwoDigits(minutes);
      FromPieces(hoursText, minutesText);
    }
    CreateIdempotent(HourMinute(hours, minutes));
  }

  lemma ParseTwoDigits(n: nat)
    requires n < 100
    ensures ParseInt(TwoDigits(n)) == Some(n)
    ensures ':' !in TwoDigits(n)
  {
    assert IsDigit(TwoDigits(n)[0]);
  }

  /** The padded text `09:05` is 9:05. */
  lemma FromPadded()
    ensures From("09:05") == Some(HourMinute(9, 5))
  {
    FromDocumentedFormat(9, 5);
    assert TwoDigits(9) + ":" + TwoDigits(5) == "09:05";
  }

  /** Text without `:` is not a time. */
  lemma FromWithoutColon(s: string)
    requires ':' !in s
    ensures From(s) == None
  {
    KotlinText.SplitNoDelimiter(s, ':');
  }

  /** Everything from a second `:` on is ignored. */
  lemma {:induction false} FromIgnoresTrailing(hours: string, minutes: string, rest: string)
    requires ':' !in hours && ':' !in minutes
    ensures From(hours + ":" + minutes + ":" + rest) == From(hours + ":" + minutes)
  {
    var long := hours + ":" + minutes + ":" + rest;
    var short := hours + ":" + minutes;
    assert long == hours + [':'] + (minutes + [':'] + rest);
    assert short == hours + [':'] + minutes;
    KotlinText.SplitCons(hours, ':', minutes + [':'] + rest);
    KotlinText.SplitCons(minutes, ':', rest);
    KotlinText.SplitCons(hours, ':', minutes);
    KotlinText.SplitNoDelimiter(minutes, ':');
    var longPieces := KotlinText.Split(long, ':');
    var shortPieces := KotlinText.Split(short, ':');
    assert |longPieces| >= 2 && longPieces[0] == hours && longPieces[1] == minutes;
    assert shortPieces == [hours, minutes];
  }
}

=== FILE: solution.dfy ===
/** solution.kt: the earlier single-file version of the program, with its own
    copies of the time, the schedule line and the solver. Each copy is modelled
    as written and stated equal to its counterpart in `Times`, `Configs` and
    `MiniCronSolver`. */
module Solution {
  import opened Wrappers
  import opened KotlinInt
  import KotlinText
  import Times
  import Configs
  import MiniCronSolver

  /** The fields of this file's `SimpleTime` class. */
  datatype Time = Time(hours: int, minutes: int) {

    /** The same value as a time of the refactored program. */
    function AsModel(): (t: Times.HourMinute) {
      Times.HourMinute(hours, minutes)
    }

    /** The private `totalMinutes`, the same count as the refactored class's. */
    function TotalMinutes(): (r: int)
      ensures r == AsModel().TotalMinutes()
    {
      hours * 60 + minutes
    }

    /** Non-strict despite its name: a time happens before itself. */
    function HappensBefore(other: Time): (r: bool)
      ensures r <==> AsModel().HappensBeforeOrAt(other.AsModel())
    {
      TotalMinutes() <= other.TotalMinutes()
    }

    /** Unpadded hour, `:`, then `00` for minute 0 and the unpadded minute otherwise. */
    function ToString(): (s: string)
      ensures s == AsModel().ToString()
    {
      var minutesStr := if minutes == 0 then "00" else IntToString(minutes);
      IntToString(hours) + ":" + minutesStr
    }
  }

  /** Every object of this file's `SimpleTime`: its fields went through the constructor. */
  type SimpleTime = t: Time | -24 < t.hours < 24 && -60 < t.minutes < 60 witness Time(0, 0)

  /** The constructor: truncating `% 24` and `% 60`, as in the refactored class. */
  function NewTime(hours: int, minutes: int): (t: SimpleTime)
    ensures t.AsModel() == Times.Create(hours, minutes)
  {
    Time(Rem(hours, 24), Rem(minutes, 60))
  }

  const ALL_VALUES: string := "*"

  /** This file's `SimpleConfig` data class. */
  datatype Config = Config(minutePattern: string, hourPattern: string, executable: string) {
    function AsModel(): (c: Configs.SimpleConfig) {
      Configs.SimpleConfig(minutePattern, hourPattern, executable)
    }
  }

  /** `SimpleConfig.from`: split on every single space and index pieces 0, 1
      and 2; a missing piece throws, modelled as `None`. */
  function ConfigFrom(s: string): (r: Option<Config>)
    ensures r.None? <==> Configs.From(s).None?
    ensures r.Some? ==> r.value.AsModel() == Configs.From(s).value
  {
    var splits := KotlinText.Split(s, ' ');
    if |splits| < 3 then None
    else Some(Config(splits[0], splits[1], splits[2]))
  }

  /** `solveFor`: the same four branches as `nextRunTime`, except that the
      hourly branch builds the next hour as `hours + 1` and leaves the
      reduction to the constructor. A pattern `Integer.parseInt` rejects
      throws, modelled as `None`. */
  function SolveFor(givenTime: SimpleTime, config: Config): (r: Option<string>)
    ensures r.None? <==>
      || (config.hourPattern != ALL_VALUES && ParseInt(config.hourPattern).None?)
      || (config.minutePattern != ALL_VALUES && ParseInt(config.minutePattern).None?)
  {
    var cronAndDay: (SimpleTime, string) :-
      if config.hourPattern != ALL_VALUES && config.minutePattern != ALL_VALUES then
        var configHour :- ParseInt(config.hourPattern);
        var configMinute :- ParseInt(config.minutePattern);
        var cronTime := NewTime(configHour, configMinute);
        Some((cronTime, if givenTime.HappensBefore(cronTime) then "today" else "tomorrow"))
      else if config.hourPattern == ALL_VALUES && config.minutePattern != ALL_VALUES then
        var configMinute :- ParseInt(config.minutePattern);
        var cronTime :=
          if configMinute >= givenTime.minutes then NewTime(givenTime.hours, configMinute)
          else NewTime(givenTime.hours + 1, configMinute);
        Some((cronTime, if givenTime.HappensBefore(cronTime) then "today" else "tomorrow"))
      else if config.hourPattern != ALL_VALUES && config.minutePattern == ALL_VALUES then
        var configHour :- ParseInt(config.hourPattern);
        var cronTime :=
          if givenTime.hours == configHour then NewTime(configHour, givenTime.minutes)
          else NewTime(configHour, 0);
        Some((cronTime, if givenTime.HappensBefore(cronTime) then "today" else "tomorrow"))
      else
        Some((givenTime, "today"));
    var (cronTime, todayOrTomorrow) := cronAndDay;
    Some(cronTime.ToString() + " " + todayOrTomorrow + " - " + config.executable)
  }

  /** One input line of `main`: parse the schedule line, then solve it. A
      line with fewer than two spaces fails. */
  function SolveLine(givenTime: SimpleTime, line: string): (r: Option<string>)
    ensures r.Some? ==> multiset(line)[' '] >= 2
  {
    Configs.FromFailsIff(line);
    var config :- ConfigFrom(line);
    SolveFor(givenTime, config)
  }

  /** A line of three space-free fields joined by single spaces is solved
      as exactly those fields: no field is lost, merged or cut. */
  lemma SolveLineFields(givenTime: SimpleTime, minutePattern: string, hourPattern: string, executable: string)
    requires ' ' !in minutePattern && ' ' !in hourPattern && ' ' !in executable
    ensures SolveLine(givenTime, minutePattern + " " + hourPattern + " " + executable)
         == SolveFor(givenTime, Config(minutePattern, hourPattern, executable))
  {
    Configs.FromRoundTrip(minutePattern, hourPattern, executable);
  }

  /** The two versions of the solver print the same line for every reference
      time and schedule line, and fail on the same inputs. */
  lemma SolveForAgrees(givenTime: SimpleTime, config: Config)
    ensures SolveFor(givenTime, config) == MiniCronSolver.NextRunTime(givenTime.AsModel(), config.AsModel())
  {
    if config.hourPattern == ALL_VALUES && config.minutePattern != ALL_VALUES {
      HourlyAgrees(givenTime, config);
    } else if config.hourPattern != ALL_VALUES && config.minutePattern == ALL_VALUES {
      EveryMinuteOfHourAgrees(givenTime, config);
    }
  }

  /** The hourly branch: `hours + 1` reduced once by the constructor equals
      `(hours + 1) % 24` reduced again. */
  lemma HourlyAgrees(givenTime: SimpleTime, config: Config)
    requires config.hourPattern == ALL_VALUES && config.minutePattern != ALL_VALUES
    ensures SolveFor(givenTime, config) == MiniCronSolver.NextRunTime(givenTime.AsModel(), config.AsModel())
  {
    var configMinute := ParseInt(config.minutePattern);
    if configMinute.Some? {
      var m := configMinute.value;
      var cronTime :=
        if m >= givenTime.minutes then NewTime(givenTime.hours, m) else NewTime(givenTime.hours + 1, m);
      var modelTime :=
        if m >= givenTime.minutes then Times.Create(givenTime.hours, m) else Times.Create(Rem(givenTime.hours + 1, 24), m);
      assert cronTime.AsModel() == modelTime by {
        RemIdempotent(givenTime.hours + 1, 24);
      }
      var day := MiniCronSolver.DayOf(givenTime.AsModel(), modelTime);
      var run := MiniCronSolver.NextRun(modelTime, day);
      assert MiniCronSolver.Resolve(givenTime.AsModel(), config.AsModel()) == Some(run);
      MiniCronSolver.NextRunTimeLine(givenTime.AsModel(), config.AsModel(), run);
      HourlyLine(givenTime, config, m);
      assert (if givenTime.HappensBefore(cronTime) then "today" else "tomorrow") == MiniCronSolver.DayWord(day);
    }
  }

  /** The line `solveFor` prints in the hourly branch. */
  lemma HourlyLine(givenTime: SimpleTime, config: Config, m: int)
    requires config.hourPattern == ALL_VALUES && config.minutePattern != ALL_VALUES
    requires ParseInt(config.minutePattern) == Some(m)
    ensures var cronTime :=
        if m >= givenTime.minutes then NewTime(givenTime.hours, m) else NewTime(givenTime.hours + 1, m);
      SolveFor(givenTime, config)
        == Some(cronTime.ToString() + " " + (if givenTime.HappensBefore(cronTime) then "today" else "tomorrow")
                + " - " + config.executable)
  {
  }

  lemma EveryMinuteOfHourAgrees(givenTime: SimpleTime, config: Config)
    requires config.hourPattern != ALL_VALUES && config.minutePattern == ALL_VALUES
    ensures SolveFor(givenTime, config) == MiniCronSolver.NextRunTime(givenTime.AsModel(), config.AsModel())
  {
    var configHour := ParseInt(config.hourPattern);
    if configHour.Some? {
      var h := configHour.value;
      var cronTime := if givenTime.hours == h then NewTime(h, givenTime.minutes) else NewTime(h, 0);
      var modelTime := if givenTime.hours == h then Times.Create(h, givenTime.minutes) else Times.Create(h, 0);
      assert cronTime.AsModel() == modelTime;
      var day := MiniCronSolver.DayOf(givenTime.AsModel(), modelTime);
      var run := MiniCronSolver.NextRun(modelTime, day);
      assert MiniCronSolver.Resolve(givenTime.AsModel(), config.AsModel()) == Some(run);
      MiniCronSolver.NextRunTimeLine(givenTime.AsModel(), config.AsModel(), run);
      EveryMinuteOfHourLine(givenTime, config, h);
      assert (if givenTime.HappensBefore(cronTime) then "today" else "tomorrow") == MiniCronSolver.DayWord(day);
    }
  }

  /** The line `solveFor` prints in the every-minute-of-one-hour branch. */
  lemma EveryMinuteOfHourLine(givenTime: SimpleTime, config: Config, h: int)
    requires config.hourPattern != ALL_VALUES && config.minutePattern == ALL_VALUES
    requires ParseInt(config.hourPattern) == Some(h)
    ensures var cronTime := if givenTime.hours == h then NewTime(h, givenTime.minutes) else NewTime(h, 0);
      SolveFor(givenTime, config)
        == Some(cronTime.ToString() + " " + (if givenTime.HappensBefore(cronTime) then "today" else "tomorrow")
                + " - " + config.executable)
  {
  }

  /** The examples in the doc comment of `happensBefore`. */
  lemma HappensBeforeExamples()
    ensures NewTime(16, 10).HappensBefore(NewTime(20, 0))
    ensures !NewTime(16, 10).HappensBefore(NewTime(15, 0))
    ensures !NewTime(16, 10).HappensBefore(NewTime(16, 5))
    ensures NewTime(16, 10).HappensBefore(NewTime(16, 10))
  {
  }
}

=== FILE: solution_vectors.dfy ===
/** The cases of `runInternalTests` in solution.kt, stated about that file's
    copies: each schedule line is parsed by `ConfigFrom` and solved by
    `SolveFor`. Schedule lines and expected lines are written word by word,
    with the single spaces between the words spelled out. */
module SolutionVectors {
  import opened Wrappers
  import opened Solution
  import TestVectors

  /** The two `happensBefore` checks. */
  lemma TimeVectors()
    ensures NewTime(16, 0).HappensBefore(NewTime(16, 10))
    ensures !NewTime(20, 0).HappensBefore(NewTime(16, 10))
  {
  }

  /** The eight solver checks. */
  lemma SolverVectors()
    ensures SolveLine(NewTime(16, 10), "30" + " " + "1" + " " + "/bin/run_me_daily")
         == Some("1:30" + " " + "tomorrow" + " - " + "/bin/run_me_daily")
    ensures SolveLine(NewTime(16, 10), "30" + " " + "16" + " " + "/bin/run_me_daily")
         == Some("16:30" + " " + "today" + " - " + "/bin/run_me_daily")
    ensures SolveLine(NewTime(16, 10), "45" + " " + "*" + " " + "/bin/run_me_hourly")
         == Some("16:45" + " " + "today" + " - " + "/bin/run_me_hourly")
    ensures SolveLine(NewTime(16, 10), "10" + " " + "*" + " " + "/bin/run_me_hourly")
         == Some("16:10" + " " + "today" + " - " + "/bin/run_me_hourly")
    ensures SolveLine(NewTime(16, 10), "*" + " " + "*" + " " + "/bin/run_me_every_minute")
         == Some("16:10" + " " + "today" + " - " + "/bin/run_me_every_minute")
    ensures SolveLine(NewTime(16, 10), "*" + " " + "19" + " " + "/bin/run_me_sixty_times")
         == Some("19:00" + " " + "today" + " - " + "/bin/run_me_sixty_times")
    ensures SolveLine(NewTime(16, 10), "*" + " " + "16" + " " + "/bin/run_me_sixty_times")
         == Some("16:10" + " " + "today" + " - " + "/bin/run_me_sixty_times")
    ensures SolveLine(NewTime(16, 10), "*" + " " + "15" + " " + "/bin/run_me_sixty_times")
         == Some("15:00" + " " + "tomorrow" + " - " + "/bin/run_me_sixty_times")
  {
    DailyTomorrow();
    DailyToday();
    HourlyLater();
    HourlySameMinute();
    EveryMinuteNow();
    HourLater();
    HourNow();
    HourPast();
  }

  lemma DailyTomorrow()
    ensures SolveLine(NewTime(16, 10), "30" + " " + "1" + " " + "/bin/run_me_daily")
         == Some("1:30" + " " + "tomorrow" + " - " + "/bin/run_me_daily")
  {
    SolveLineFields(NewTime(16, 10), "30", "1", "/bin/run_me_daily");
    SolveForAgrees(NewTime(16, 10), Config("30", "1", "/bin/run_me_daily"));
    TestVectors.DailyTomorrow();
  }

  lemma DailyToday()
    ensures SolveLine(NewTime(16, 10), "30" + " " + "16" + " " + "/bin/run_me_daily")
         == Some("16:30" + " " + "today" + " - " + "/bin/run_me_daily")
  {
    SolveLineFields(NewTime(16, 10), "30", "16", "/bin/run_me_daily");
    SolveForAgrees(NewTime(16, 10), Config("30", "16", "/bin/run_me_daily"));
    TestVectors.DailyToday();
  }

  lemma HourlyLater()
    ensures SolveLine(NewTime(16, 10), "45" + " " + "*" + " " + "/bin/run_me_hourly")
         == Some("16:45" + " " + "today" + " - " + "/bin/run_me_hourly")
  {
    SolveLineFields(NewTime(16, 10), "45", "*", "/bin/run_me_hourly");
    SolveForAgrees(NewTime(16, 10), Config("45", "*", "/bin/run_me_hourly"));
    TestVectors.HourlyLater();
  }

  lemma HourlySameMinute()
    ensures SolveLine(NewTime(16, 10), "10" + " " + "*" + " " + "/bin/run_me_hourly")
         == Some("16:10" + " " + "today" + " - " + "/bin/run_me_hourly")
  {
    SolveLineFields(NewTime(16, 10), "10", "*", "/bin/run_me_hourly");
    SolveForAgrees(NewTime(16, 10), Config("10", "*", "/bin/run_me_hourly"));
    TestVectors.HourlySameMinute();
  }

  lemma EveryMinuteNow()
    ensures SolveLine(NewTime(16, 10), "*" + " " + "*" + " " + "/bin/run_me_every_minute")
         == Some("16:10" + " " + "today" + " - " + "/bin/run_me_every_minute")
  {
    SolveLineFields(NewTime(16, 10), "*", "*", "/bin/run_me_every_minute");
    SolveForAgrees(NewTime(16, 10), Config("*", "*", "/bin/run_me_every_minute"));
    TestVectors.EveryMinuteNow();
  }

  lemma HourLater()
    ensures SolveLine(NewTime(16, 10), "*" + " " + "19" + " " + "/bin/run_me_sixty_times")
         == Some("19:00" + " " + "today" + " - " + "/bin/run_me_sixty_times")
  {
    SolveLineFields(NewTime(16, 10), "*", "19", "/bin/run_me_sixty_times");
    SolveForAgrees(NewTime(16, 10), Config("*", "19", "/bin/run_me_sixty_times"));
    TestVectors.HourLater();
  }

  lemma HourNow()
    ensures SolveLine(NewTime(16, 10), "*" + " " + "16" + " " + "/bin/run_me_sixty_times")
         == Some("16:10" + " " + "today" + " - " + "/bin/run_me_sixty_times")
  {
    SolveLineFields(NewTime(16, 10), "*", "16", "/bin/run_me_sixty_times");
    SolveForAgrees(NewTime(16, 10), Config("*", "16", "/bin/run_me_sixty_times"));
    TestVectors.HourNow();
  }

  lemma HourPast()
    ensures SolveLine(NewTime(16, 10), "*" + " " + "15" + " " + "/bin/run_me_sixty_times")
         == Some("15:00" + " " + "tomorrow" + " - " + "/bin/run_me_sixty_times")
  {
    SolveLineFields(NewTime(16, 10), "*", "15", "/bin/run_me_sixty_times");
    SolveForAgrees(NewTime(16, 10), Config("*", "15", "/bin/run_me_sixty_times"));
    TestVectors.HourPast();
  }
}

=== FILE: test_vectors.dfy ===
/** The cases of src/test/InternalTestRunner.kt, stated about the model. Each
    schedule line of a test is given by its three fields (that such a line
    parses to them is `Configs.FromRoundTrip`), and each expected output line
    is written word by word: time, day, `-`, executable. */
module TestVectors {
  import opened Wrappers
  import opened KotlinInt
  import opened Times
  import opened Configs
  import opened MiniCronSolver

  /** `happensBeforeOrAt` on the two cases of runSimpleTimeTests. */
  lemma SimpleTimeVectors()
    ensures Create(16, 0).HappensBeforeOrAt(Create(16, 10))
    ensures !Create(20, 0).HappensBeforeOrAt(Create(16, 10))
  {
  }

  /** The eleven solver cases of runSolverTests. */
  lemma SolverVectors()
    ensures NextRunTime(Create(16, 10), SimpleConfig("30", "1", "/bin/run_me_daily"))
         == Some("1:30" + " " + "tomorrow" + " - " + "/bin/run_me_daily")
    ensures NextRunTime(Create(16, 10), SimpleConfig("30", "16", "/bin/run_me_daily"))
         == Some("16:30" + " " + "today" + " - " + "/bin/run_me_daily")
    ensures NextRunTime(Create(0, 0), SimpleConfig("0", "0", "/bin/daily_midnight"))
         == Some("0:00" + " " + "today" + " - " + "/bin/daily_midnight")
    ensures NextRunTime(Create(16, 10), SimpleConfig("45", "*", "/bin/run_me_hourly"))
         == Some("16:45" + " " + "today" + " - " + "/bin/run_me_hourly")
    ensures NextRunTime(Create(16, 10), SimpleConfig("10", "*", "/bin/run_me_hourly"))
         == Some("16:10" + " " + "today" + " - " + "/bin/run_me_hourly")
    ensures NextRunTime(Create(23, 1), SimpleConfig("0", "*", "/bin/hourly_at_zeroth_minute"))
         == Some("0:00" + " " + "tomorrow" + " - " + "/bin/hourly_at_zeroth_minute")
    ensures NextRunTime(Create(16, 10), SimpleConfig("*", "*", "/bin/run_me_every_minute"))
         == Some("16:10" + " " + "today" + " - " + "/bin/run_me_every_minute")
    ensures NextRunTime(Create(16, 10), SimpleConfig("*", "19", "/bin/run_me_sixty_times"))
         == Some("19:00" + " " + "today" + " - " + "/bin/run_me_sixty_times")
    ensures NextRunTime(Create(16, 10), SimpleConfig("*", "16", "/bin/run_me_sixty_times"))
         == Some("16:10" + " " + "today" + " - " + "/bin/run_me_sixty_times")
    ensures NextRunTime(Create(16, 10), SimpleConfig("*", "15", "/bin/run_me_sixty_times"))
         == Some("15:00" + " " + "tomorrow" + " - " + "/bin/run_me_sixty_times")
    ensures NextRunTime(Create(0, 0), SimpleConfig("*", "*", "/bin/sixty_times_midnight"))
         == Some("0:00" + " " + "today" + " - " + "/bin/sixty_times_midnight")
  {
    DailyTomorrow();
    DailyToday();
    DailyMidnight();
    HourlyLater();
    HourlySameMinute();
    HourlyWrap();
    EveryMinuteNow();
    HourLater();
    HourNow();
    HourPast();
    EveryMinuteMidnight();
  }

  /** The hour pattern is compared raw: `40` reduces to hour 16, yet at 16:10
      it does not count as the current hour, so the run is 16:00 tomorrow. */
  lemma RawHourComparison()
    ensures NextRunTime(Create(16, 10), SimpleConfig("*", "40", "/bin/x")) == Some("16:00" + " " + "tomorrow" + " - " + "/bin/x")
  {
    assert Create(40, 0) == HourMinute(16, 0);
    assert Resolve(Create(16, 10), SimpleConfig("*", "40", "/bin/x")) == Some(NextRun(Create(40, 0), Tomorrow)) by {
      ParseIntToString(40); assert ParseInt("*") == None;
    }
    assert Create(40, 0).ToString() == "16:00";
  }

  lemma DailyTomorrow()
    ensures NextRunTime(Create(16, 10), SimpleConfig("30", "1", "/bin/run_me_daily"))
         == Some("1:30" + " " + "tomorrow" + " - " + "/bin/run_me_daily")
  {
    DailyTomorrowRun();
    DailyTomorrowTime();
  }

  lemma DailyTomorrowRun()
    ensures Resolve(Create(16, 10), SimpleConfig("30", "1", "/bin/run_me_daily")) == Some(NextRun(Create(1, 30), Tomorrow))
  {
    ParseIntToString(30); ParseIntToString(1); assert ParseInt("*") == None;
  }

  lemma DailyTomorrowTime()
    ensures Create(1, 30).ToString() == "1:30"
  {
  }

  lemma DailyToday()
    ensures NextRunTime(Create(16, 10), SimpleConfig("30", "16", "/bin/run_me_daily"))
         == Some("16:30" + " " + "today" + " - " + "/bin/run_me_daily")
  {
    DailyTodayRun();
    DailyTodayTime();
  }

  lemma DailyTodayRun()
    ensures Resolve(Create(16, 10), SimpleConfig("30", "16", "/bin/run_me_daily")) == Some(NextRun(Create(16, 30), Today))
  {
    ParseIntToString(30); ParseIntToString(16); assert ParseInt("*") == None;
  }

  lemma DailyTodayTime()
    ensures Create(16, 30).ToString() == "16:30"
  {
  }

  lemma DailyMidnight()
    ensures NextRunTime(Create(0, 0), SimpleConfig("0", "0", "/bin/daily_midnight"))
         == Some("0:00" + " " + "today" + " - " + "/bin/daily_midnight")
  {
    DailyMidnightRun();
    DailyMidnightTime();
  }

  lemma DailyMidnightRun()
    ensures Resolve(Create(0, 0), SimpleConfig("0", "0", "/bin/daily_midnight")) == Some(NextRun(Create(0, 0), Today))
  {
    ParseIntToString(0);
    DailyNextRun(Create(0, 0), SimpleConfig("0", "0", "/bin/daily_midnight"), 0, 0);
    assert DayOf(Create(0, 0), Create(0, 0)) == Today;
  }

  lemma DailyMidnightTime()
    ensures Create(0, 0).ToString() == "0:00"
  {
  }

  lemma HourlyLater()
    ensures NextRunTime(Create(16, 10), SimpleConfig("45", "*", "/bin/run_me_hourly"))
         == Some("16:45" + " " + "today" + " - " + "/bin/run_me_hourly")
  {
    HourlyLaterRun();
    HourlyLaterTime();
  }

  lemma HourlyLaterRun()
    ensures Resolve(Create(16, 10), SimpleConfig("45", "*", "/bin/run_me_hourly")) == Some(NextRun(Create(16, 45), Today))
  {
    ParseIntToString(45); assert ParseInt("*") == None;
  }

  lemma HourlyLaterTime()
    ensures Create(16, 45).ToString() == "16:45"
  {
  }

  lemma HourlySameMinute()
    ensures NextRunTime(Create(16, 10), SimpleConfig("10", "*", "/bin/run_me_hourly"))
         == Some("16:10" + " " + "today" + " - " + "/bin/run_me_hourly")
  {
    HourlySameMinuteRun();
    HourlySameMinuteTime();
  }

  lemma HourlySameMinuteRun()
    ensures Resolve(Create(16, 10), SimpleConfig("10", "*", "/bin/run_me_hourly")) == Some(NextRun(Create(16, 10), Today))
  {
    ParseIntToString(10); assert ParseInt("*") == None;
  }

  lemma HourlySameMinuteTime()
    ensures Create(16, 10).ToString() == "16:10"
  {
  }

  lemma HourlyWrap()
    ensures NextRunTime(Create(23, 1), SimpleConfig("0", "*", "/bin/hourly_at_zeroth_minute"))
         == Some("0:00" + " " + "tomorrow" + " - " + "/bin/hourly_at_zeroth_minute")
  {
    HourlyWrapRun();
    HourlyWrapTime();
  }

  lemma HourlyWrapRun()
    ensures Resolve(Create(23, 1), SimpleConfig("0", "*", "/bin/hourly_at_zeroth_minute")) == Some(NextRun(Create(0, 0), Tomorrow))
  {
    ParseIntToString(0); assert ParseInt("*") == None;
  }

  lemma HourlyWrapTime()
    ensures Create(0, 0).ToString() == "0:00"
  {
  }

  lemma EveryMinuteNow()
    ensures NextRunTime(Create(16, 10), SimpleConfig("*", "*", "/bin/run_me_every_minute"))
         == Some("16:10" + " " + "today" + " - " + "/bin/run_me_every_minute")
  {
    EveryMinuteNowRun();
    EveryMinuteNowTime();
  }

  lemma EveryMinuteNowRun()
    ensures Resolve(Create(16, 10), SimpleConfig("*", "*", "/bin/run_me_every_minute")) == Some(NextRun(Create(16, 10), Today))
  {
    assert ParseInt("*") == None;
  }

  lemma EveryMinuteNowTime()
    ensures Create(16, 10).ToString() == "16:10"
  {
  }

  lemma HourLater()
    ensures NextRunTime(Create(16, 10), SimpleConfig("*", "19", "/bin/run_me_sixty_times"))
         == Some("19:00" + " " + "today" + " - " + "/bin/run_me_sixty_times")
  {
    HourLaterRun();
    HourLaterTime();
  }

  lemma HourLaterRun()
    ensures Resolve(Create(16, 10), SimpleConfig("*", "19", "/bin/run_me_sixty_times")) == Some(NextRun(Create(19, 0), Today))
  {
    ParseIntToString(19); assert ParseInt("*") == None;
  }

  lemma HourLaterTime()
    ensures Create(19, 0).ToString() == "19:00"
  {
  }

  lemma HourNow()
    ensures NextRunTime(Create(16, 10), SimpleConfig("*", "16", "/bin/run_me_sixty_times"))
         == Some("16:10" + " " + "today" + " - " + "/bin/run_me_sixty_times")
  {
    HourNowRun();
    HourNowTime();
  }

  lemma HourNowRun()
    ensures Resolve(Create(16, 10), SimpleConfig("*", "16", "/bin/run_me_sixty_times")) == Some(NextRun(Create(16, 10), Today))
  {
    ParseIntToString(16); assert ParseInt("*") == None;
  }

  lemma HourNowTime()
    ensures Create(16, 10).ToString() == "16:10"
  {
  }

  lemma HourPast()
    ensures NextRunTime(Create(16, 10), SimpleConfig("*", "15", "/bin/run_me_sixty_times"))
         == Some("15:00" + " " + "tomorrow" + " - " + "/bin/run_me_sixty_times")
  {
    HourPastRun();
    HourPastTime();
  }

  lemma HourPastRun()
    ensures Resolve(Create(16, 10), SimpleConfig("*", "15", "/bin/run_me_sixty_times")) == Some(NextRun(Create(15, 0), Tomorrow))
  {
    ParseIntToString(15); assert ParseInt("*") == None;
  }

  lemma HourPastTime()
    ensures Create(15, 0).ToString() == "15:00"
  {
  }

  lemma EveryMinuteMidnight()
    ensures NextRunTime(Create(0, 0), SimpleConfig("*", "*", "/bin/sixty_times_midnight"))
         == Some("0:00" + " " + "today" + " - " + "/bin/sixty_times_midnight")
  {
    EveryMinuteMidnightRun();
    EveryMinuteMidnightTime();
  }

  lemma EveryMinuteMidnightRun()
    ensures Resolve(Create(0, 0), SimpleConfig("*", "*", "/bin/sixty_times_midnight")) == Some(NextRun(Create(0, 0), Today))
  {
    assert ParseInt("*") == None;
  }

  lemma EveryMinuteMidnightTime()
    ensures Create(0, 0).ToString() == "0:00"
  {
  }
}

=== FILE: wrappers.dfy ===
/** The failure-compatible Option used for every operation that can throw in the
    Kotlin program: every exception (NumberFormatException,
    IndexOutOfBoundsException) collapses into `None`. */
module Wrappers {

  datatype Option<+T> = None | Some(value: T) {

    predicate IsFailure() {
      None?
    }

    function PropagateFailure<U>(): (r: Option<U>)
      requires None?
    {
      None
    }

    function Extract(): (v: T)
      requires Some?
    {
      value
    }
  }
}
